=== FILE: README.md ===
# CotEditor for iOS — reconciliation core, modelled in Dafny

This project models the logic core of the CotEditor iOS shell (a SwiftUI app): the
load-token reconciler that keeps the document and Runestone's native text view in step,
the two views that drive it (the document editor and the performance spike screen),
the Markdown preview bridge to the embedded web view, the Markdown highlight theme, and
the plain-text document's read and write paths.

One Dafny module per Swift file:

| module | file | form |
|---|---|---|
| `RunestoneEditor` (runestone_editor.dfy) | RunestoneEditor.swift | classes: a fake `TextView` (text, line-number flag, editable, selectable, `pushCount`) and the `Coordinator` holding `lastLoadID`; `makeUIView` and `updateUIView` are tied to the pure step functions `Created` and `Reconciled`; a user edit followed by the delegate call (`UserTypes`) is tied to `Edited` and `Delivered` |
| `EditorView` (editor_view.dfy) | EditorView.swift | class with the document binding and the once-minted token; a pure session model of edits, outside writes and re-renders |
| `SpikeView` (spike_view.dfy) | SpikeView.swift | class with `text`, `loadID`, `characterCount`; the generator is a method with a `for` loop |
| `MarkdownPreviewView` (markdown_preview_view.dfy) | MarkdownPreviewView.swift | escaping as functions; the page-load gate as a `Coordinator` class plus a fake web view that logs each evaluated script; the navigation policy as a function |
| `CotEditorTheme` (cot_editor_theme.dfy) | CotEditorTheme.swift | functions over a default theme given as a parameter |
| `TextDocument` (text_document.dfy) | TextDocument.swift | functions over decoders and an encoder given as parameters |
| `Wrappers` (wrappers.dfy) | — | `Option` and `Result` |

Load tokens (UUIDs in the app) are natural numbers; `Mint` makes a token different from
the previous one, which is the only property of `UUID()` the app relies on.

The model follows the Swift code as written. In particular the reconciler pushes only
the text (it sets no language or theme on the widget), and the code has no theme-only
update path, no find trigger and no language resolver, so none is modelled.

## Model

| member | source | states |
|---|---|---|
| RunestoneEditor.Mint | CotEditorMobile/Sources/SpikeView.swift:103 | a minted token differs from the previous one |
| RunestoneEditor.Make | CotEditorMobile/Sources/RunestoneEditor.swift:38-48 | initializer defaults: empty text, line numbers on, no handler, and the token `minted` (standing for the default `UUID()`) unless one is given |
| RunestoneEditor.Created | CotEditorMobile/Sources/RunestoneEditor.swift:50-59 | the state `makeUIView` leaves; its contents are stated by CreatedShowsRequest |
| RunestoneEditor.Reconciled | CotEditorMobile/Sources/RunestoneEditor.swift:62-70 | the state `updateUIView` leaves; stated by PushIffTokenDiffers, ReconcileIdempotent, LineNumbersNeverPush and DefaultTokenRepushes |
| RunestoneEditor.Edited | CotEditorMobile/Sources/RunestoneEditor.swift:84-85 | the widget state after the user types; stated by EditRoundTrip and StableTokenNeverRepushes |
| RunestoneEditor.Delivered | CotEditorMobile/Sources/RunestoneEditor.swift:84-86 | what `textViewDidChange` hands the handler; stated by EditRoundTrip and TextViewDidChange |
| RunestoneEditor.TextView.constructor | CotEditorMobile/Sources/RunestoneEditor.swift:51 | a new widget holds empty text and has had no push |
| RunestoneEditor.TextView.SetText | CotEditorMobile/Sources/RunestoneEditor.swift:68 | a programmatic text assignment replaces the text and counts one push, nothing else changes |
| RunestoneEditor.TextView.UserEdit | CotEditorMobile/Sources/RunestoneEditor.swift:84-86 | a widget-originated edit changes the text without counting a push |
| RunestoneEditor.Coordinator.constructor | CotEditorMobile/Sources/RunestoneEditor.swift:80-82 | the coordinator keeps the handler and starts with no applied token |
| RunestoneEditor.MakeCoordinator | CotEditorMobile/Sources/RunestoneEditor.swift:72-74 | the coordinator is fresh, has no applied token and keeps the view's handler |
| RunestoneEditor.MakeUIView | CotEditorMobile/Sources/RunestoneEditor.swift:50-59 | the new widget shows `textToLoad` with the requested line-number flag, editable and selectable, after exactly one push, and the token is recorded |
| RunestoneEditor.CreatedShowsRequest | CotEditorMobile/Sources/RunestoneEditor.swift:50-59 | after creation the widget state matches the request and `lastLoadID == loadID` |
| RunestoneEditor.UpdateUIView | CotEditorMobile/Sources/RunestoneEditor.swift:62-70 | the widget and coordinator move to the reconciled state of the old state |
| RunestoneEditor.PushIffTokenDiffers | CotEditorMobile/Sources/RunestoneEditor.swift:62-70 | a pass pushes `textToLoad` iff the requested token differs from the applied one, else leaves the text; afterwards the requested token is applied |
| RunestoneEditor.DefaultTokenRepushes | CotEditorMobile/Sources/RunestoneEditor.swift:38-70 | a request rebuilt on each pass with the default token carries a new token, so the next pass pushes the same text again |
| RunestoneEditor.ReconcileIdempotent | CotEditorMobile/Sources/RunestoneEditor.swift:66-69 | a second pass with the same request changes nothing |
| RunestoneEditor.LineNumbersNeverPush | CotEditorMobile/Sources/RunestoneEditor.swift:63 | the line-number flag is applied on every pass and changing it changes nothing else |
| RunestoneEditor.Coordinator.TextViewDidChange | CotEditorMobile/Sources/RunestoneEditor.swift:84-86 | the handler receives exactly the widget's text, nothing without a handler, and the token is untouched |
| RunestoneEditor.UserTypes | CotEditorMobile/Sources/RunestoneEditor.swift:84-86 | the user's edit in the widget then the delegate call: the widget moves by `Edited` without a push, and the handler receives exactly the typed text |
| RunestoneEditor.EditRoundTrip | CotEditorMobile/Sources/RunestoneEditor.swift:62-86 | after an edit the handler gets the typed text, the token and push count are unchanged, and the next pass with the same token keeps the typed text |
| RunestoneEditor.StableTokenNeverRepushes | CotEditorMobile/Sources/RunestoneEditor.swift:62-86 | any sequence of edits and passes requesting the applied token pushes nothing and leaves the last typed text |
| EditorView.FileName | CotEditorMobile/Sources/EditorView.swift:37-39 | the title is the URL's last path component, or "Untitled" without a URL |
| EditorView.EditorFor | CotEditorMobile/Sources/EditorView.swift:42-50 | the editor is seeded from the document's text, under the view's token, with line numbers on and a handler |
| EditorView.EditorView.constructor | CotEditorMobile/Sources/EditorView.swift:32-35 | the view holds the document binding, the URL and a token minted once |
| EditorView.EditorView.Body | CotEditorMobile/Sources/EditorView.swift:41-50 | the body's request does not depend on the language argument |
| EditorView.EditorView.OnTextChange | CotEditorMobile/Sources/EditorView.swift:47-49 | the document's text becomes exactly the new text, nothing else changes |
| EditorView.Opened | CotEditorMobile/Sources/EditorView.swift:41-50 | the session when the document is opened: the widget created from the body's request; stated by EditsNeverRepush |
| EditorView.Step | CotEditorMobile/Sources/EditorView.swift:41-50 | one edit (written back through `onTextChange`), outside write or re-render; stated by TypingWritesDocument, ExternalWriteNotShown and SeedingPreserved |
| EditorView.Typings | CotEditorMobile/Sources/EditorView.swift:47-49 | the user's edits among a session's events, as reconciler events, so that the widget's text is the reconciler's `LastTyped` |
| EditorView.TypingWritesDocument | CotEditorMobile/Sources/EditorView.swift:47-49 | an edit changes the document exactly as `OnTextChange` does (its text becomes the typed text) and the widget shows the typed text, without a push or a token change |
| EditorView.ExternalWriteNotShown | CotEditorMobile/Sources/EditorView.swift:42-50 | a write to the document from outside the view, then a re-render, changes the document but not the widget: same token, so no push and the old text stays on screen |
| EditorView.SeedingPreserved | CotEditorMobile/Sources/EditorView.swift:42-50 | edits, outside writes and re-renders keep the view's token applied with no further push; the widget shows the last edit (the reconciler's `LastTyped` over the session's edits) and the document holds the last write |
| EditorView.LocalTextsAgree | CotEditorMobile/Sources/EditorView.swift:42-50 | without outside writes, the widget's text and the document's text are the same after any events |
| EditorView.EditsNeverRepush | CotEditorMobile/Sources/EditorView.swift:35-50 | after opening, no interleaving of edits, outside writes and re-renders pushes text again; the widget shows the user's last edit and the document its last write, and the two agree when there were no outside writes |
| SpikeView.Utf8Length | CotEditorMobile/Sources/SpikeView.swift:91 | the UTF-8 length lies between one and four bytes per character |
| SpikeView.Decimal | CotEditorMobile/Sources/SpikeView.swift:98 | the interpolated line number is a non-empty run of decimal digits (DecimalValue gives the number they denote) |
| SpikeView.DecimalValue | CotEditorMobile/Sources/SpikeView.swift:98 | the interpolated digits denote exactly the line number, with no leading zero |
| SpikeView.NumberedLine | CotEditorMobile/Sources/SpikeView.swift:98 | line k of the generated text; stated by NumberedLineBreaks and, through DecimalValue, carrying the number k |
| SpikeView.Lines | CotEditorMobile/Sources/SpikeView.swift:94-99 | there are exactly as many lines as asked for |
| SpikeView.Joined | CotEditorMobile/Sources/SpikeView.swift:101 | `joined()` with no separator; stated through GeneratedTextStep |
| SpikeView.GeneratedText | CotEditorMobile/Sources/SpikeView.swift:94-101 | the generated text for n lines; stated by GeneratedTextStep and GeneratedLineBreaks |
| SpikeView.LineCount | CotEditorMobile/Sources/SpikeView.swift:89-92 | the number of whole sample lines in the requested size, `sizeKB * 1024 / 56`; MenuLineCounts gives the menu values |
| SpikeView.SampleLineFacts | CotEditorMobile/Sources/SpikeView.swift:90 | the sample line is ASCII, 56 characters, with a single line feed at its end |
| SpikeView.SampleLineBytes | CotEditorMobile/Sources/SpikeView.swift:89-92 | the sample line's UTF-8 length is 56, the divisor of the line count |
| SpikeView.MenuLineCounts | CotEditorMobile/Sources/SpikeView.swift:56-60 | the 1024 KB and 5120 KB items generate 18724 and 93622 lines |
| SpikeView.GeneratedTextStep | CotEditorMobile/Sources/SpikeView.swift:97-101 | the text for n + 1 lines is the text for n lines followed by "Line n+1: " and the sample line |
| SpikeView.NumberedLineBreaks | CotEditorMobile/Sources/SpikeView.swift:98 | each generated line has exactly one line feed, at its end |
| SpikeView.GeneratedLineBreaks | CotEditorMobile/Sources/SpikeView.swift:97-101 | the generated text has exactly `lineCount` lines and is empty exactly when `lineCount` is 0 |
| SpikeView.NewTokenRenderPushes | CotEditorMobile/Sources/SpikeView.swift:43-48 | after the view mints a new token (ClearText, GenerateTestText), the next pass with the request its body builds pushes the view's text exactly once and applies the new token |
| SpikeView.SpikeView.constructor | CotEditorMobile/Sources/SpikeView.swift:31-33 | empty text, zero count, an initial token |
| SpikeView.SpikeView.Body | CotEditorMobile/Sources/SpikeView.swift:43-48 | the editor request carries the view's text and token, line numbers on, with a handler |
| SpikeView.SpikeView.HandleTextChange | CotEditorMobile/Sources/SpikeView.swift:84-86 | only the character count follows the new text; text and token are unchanged |
| SpikeView.SpikeView.GenerateTestText | CotEditorMobile/Sources/SpikeView.swift:88-104 | the text is the generated text for `sizeKB * 1024 / 56` lines, the count is its length, and the token is fresh |
| SpikeView.SpikeView.ClearText | CotEditorMobile/Sources/SpikeView.swift:106-110 | empty text, zero count, fresh token |
| SpikeView.SpikeView.Choose | CotEditorMobile/Sources/SpikeView.swift:56-60 | the three menu items generate 1024 KB, 5120 KB, or clear, each under a fresh token |
| MarkdownPreviewView.ReplaceAll | CotEditorMobile/Sources/MarkdownPreviewView.swift:73-77 | one `replacingOccurrences(of:with:)` with a one-character pattern, as literal matching over single Unicode scalars; it works character by character (ReplaceAllAppend, ReplaceAllSingle) and leaves text without the pattern alone (ReplaceAllAbsent) |
| MarkdownPreviewView.EscapeForJS | CotEditorMobile/Sources/MarkdownPreviewView.swift:71-78 | the five replacements in the source's order, each as literal matching over single Unicode scalars; stated by EscapeForJSIsPerCharacter, EscapeRoundTrip, EscapeInjective, EscapeLeavesPlainText, EscapeHasNoLineBreaks and EscapeIsGuarded |
| MarkdownPreviewView.RenderCommand | CotEditorMobile/Sources/MarkdownPreviewView.swift:64-66 | the `renderMarkdown` call around the escaped text in a template literal, built the same way at line 88; stated by RenderCommandDeliversText |
| MarkdownPreviewView.EscapeChar | CotEditorMobile/Sources/MarkdownPreviewView.swift:71-78 | each of the five special characters becomes a backslash and one character; every other character stays |
| MarkdownPreviewView.EscapeForJSIsPerCharacter | CotEditorMobile/Sources/MarkdownPreviewView.swift:71-78 | the ordered chain backslash, backtick, dollar, LF, CR equals one pass escaping each character |
| MarkdownPreviewView.EscapeRoundTrip | CotEditorMobile/Sources/MarkdownPreviewView.swift:71-78 | left-to-right unescaping of the escaped text gives the original text |
| MarkdownPreviewView.EscapeInjective | CotEditorMobile/Sources/MarkdownPreviewView.swift:71-78 | different texts have different escapes |
| MarkdownPreviewView.EscapeLeavesPlainText | CotEditorMobile/Sources/MarkdownPreviewView.swift:71-78 | text without the five characters is unchanged |
| MarkdownPreviewView.EscapeHasNoLineBreaks | CotEditorMobile/Sources/MarkdownPreviewView.swift:76-77 | the escaped text has no raw LF or CR |
| MarkdownPreviewView.EscapeIsGuarded | CotEditorMobile/Sources/MarkdownPreviewView.swift:69-75 | every backtick and dollar in the escaped text follows an odd run of backslashes |
| MarkdownPreviewView.RenderCommandDeliversText | CotEditorMobile/Sources/MarkdownPreviewView.swift:64-66 | a template-literal lexer reads the render command's literal as exactly the document text, closing at the suffix's backtick with no substitution |
| MarkdownPreviewView.BacktickFirstReopensInjection | CotEditorMobile/Sources/MarkdownPreviewView.swift:71-75 | with backtick escaped before backslash, a lone backtick closes the literal early |
| MarkdownPreviewView.Made | CotEditorMobile/Sources/MarkdownPreviewView.swift:36-50 | the state after `makeUIView`: not loaded, the text pending, nothing rendered |
| MarkdownPreviewView.Updated | CotEditorMobile/Sources/MarkdownPreviewView.swift:52-58 | the state after `updateUIView`; stated by UpdateGate and UpdatesBeforeLoad |
| MarkdownPreviewView.Finished | CotEditorMobile/Sources/MarkdownPreviewView.swift:84-91 | the state after `didFinish`; stated by FinishFlushesOnce and PendingFlushRendersLast |
| MarkdownPreviewView.UpdateGate | CotEditorMobile/Sources/MarkdownPreviewView.swift:52-58 | before load an update only replaces the pending text; after load it renders immediately |
| MarkdownPreviewView.FinishFlushesOnce | CotEditorMobile/Sources/MarkdownPreviewView.swift:84-91 | load completion marks the page loaded, renders the pending text once if any, clears it, and a repeat renders nothing |
| MarkdownPreviewView.UpdatesBeforeLoad | CotEditorMobile/Sources/MarkdownPreviewView.swift:52-58 | updates before load leave only the last text pending (last write wins) |
| MarkdownPreviewView.PendingFlushRendersLast | CotEditorMobile/Sources/MarkdownPreviewView.swift:48-91 | texts sent before load produce one render, of the last text, when the page loads |
| MarkdownPreviewView.GateHolds | CotEditorMobile/Sources/MarkdownPreviewView.swift:48-91 | along any run, nothing is rendered before load and nothing is pending after it |
| MarkdownPreviewView.DecidePolicy | CotEditorMobile/Sources/MarkdownPreviewView.swift:94-104 | cancel (and open externally) iff a link activation with a URL; allow everything else |
| MarkdownPreviewView.Coordinator.DecidePolicyFor | CotEditorMobile/Sources/MarkdownPreviewView.swift:94-104 | the delegate's decision is the navigation policy |
| MarkdownPreviewView.Coordinator.constructor | CotEditorMobile/Sources/MarkdownPreviewView.swift:80-82 | not loaded, nothing pending |
| MarkdownPreviewView.Coordinator.DidFinish | CotEditorMobile/Sources/MarkdownPreviewView.swift:84-91 | coordinator and web view move to the load-completed state |
| MarkdownPreviewView.WebView.constructor | CotEditorMobile/Sources/MarkdownPreviewView.swift:37-38 | a new web view has evaluated no script |
| MarkdownPreviewView.WebView.EvaluateJavaScript | CotEditorMobile/Sources/MarkdownPreviewView.swift:66 | the script is appended to the web view's log |
| MarkdownPreviewView.MakeUIView | CotEditorMobile/Sources/MarkdownPreviewView.swift:36-50 | a fresh web view with nothing rendered and the view's text pending |
| MarkdownPreviewView.UpdateUIView | CotEditorMobile/Sources/MarkdownPreviewView.swift:52-58 | coordinator and web view move to the updated state |
| MarkdownPreviewView.CallRenderMarkdown | CotEditorMobile/Sources/MarkdownPreviewView.swift:64-67 | exactly the render command for the text is appended to the log |
| CotEditorTheme.Theme.Property | CotEditorMobile/Sources/CotEditorTheme.swift:39-54 | the sixteen base properties, each read from the default theme; stated by DelegatedMembers |
| CotEditorTheme.Theme.TextColorFor | CotEditorMobile/Sources/CotEditorTheme.swift:58-75 | the colour switch; stated by TextColorMatchesTable, ProseStyles and ColouredOnlyNames |
| CotEditorTheme.Theme.FontTraitsFor | CotEditorMobile/Sources/CotEditorTheme.swift:79-88 | the traits switch; stated by FontTraitsMatchTable and OverriddenTraitsHaveColour |
| CotEditorTheme.Theme.HighlightedRange | CotEditorMobile/Sources/CotEditorTheme.swift:93-98 | the found-text highlight, from the default theme; stated by DelegatedMembers |
| CotEditorTheme.Theme.ShadowFor | CotEditorMobile/Sources/CotEditorTheme.swift:100-102 | the shadow, from the default theme; stated by DelegatedMembers |
| CotEditorTheme.Theme.FontFor | CotEditorMobile/Sources/CotEditorTheme.swift:104-106 | the font, from the default theme; stated by DelegatedMembers |
| CotEditorTheme.TextColorMatchesTable | CotEditorMobile/Sources/CotEditorTheme.swift:58-75 | the six Markdown names get their table colour; every other name gets the default theme's colour |
| CotEditorTheme.FontTraitsMatchTable | CotEditorMobile/Sources/CotEditorTheme.swift:79-88 | title and strong are bold, emphasis italic; every other name gets the default theme's traits |
| CotEditorTheme.ProseStyles | CotEditorMobile/Sources/CotEditorTheme.swift:60-84 | title, strong and emphasis are in the label colour with bold, bold and italic traits |
| CotEditorTheme.ColouredOnlyNames | CotEditorMobile/Sources/CotEditorTheme.swift:65-86 | literal, URI and reference are orange, link and secondary label, with the default theme's traits |
| CotEditorTheme.OverriddenTraitsHaveColour | CotEditorMobile/Sources/CotEditorTheme.swift:60-84 | every name with overridden traits also has an overridden colour |
| CotEditorTheme.DelegatedMembers | CotEditorMobile/Sources/CotEditorTheme.swift:39-106 | shadow, font, found-text range and all base properties are the default theme's |
| TextDocument.ReadableContentTypes | CotEditorMobile/Sources/TextDocument.swift:36 | exactly plain text, JSON and Swift source, in that order |
| TextDocument.New | CotEditorMobile/Sources/TextDocument.swift:38-40 | the document stores its argument, by default the empty string |
| TextDocument.Decode | CotEditorMobile/Sources/TextDocument.swift:47 | UTF-8, falling back to ASCII; stated by AsciiOnlyOnUtf8Failure |
| TextDocument.Read | CotEditorMobile/Sources/TextDocument.swift:42-51 | `init(configuration:)`; stated by ReadOutcomes, ReadSucceedsIff and WriteThenRead |
| TextDocument.Write | CotEditorMobile/Sources/TextDocument.swift:53-56 | `fileWrapper(configuration:)`'s contents; stated by WriteOutcomes and WriteThenRead |
| TextDocument.ReadOutcomes | CotEditorMobile/Sources/TextDocument.swift:42-51 | no contents: corrupt-file error; UTF-8 result if it decodes; else ASCII result; else inapplicable-encoding error |
| TextDocument.AsciiOnlyOnUtf8Failure | CotEditorMobile/Sources/TextDocument.swift:47 | when UTF-8 decoding succeeds, the ASCII decoder does not affect the result |
| TextDocument.ReadSucceedsIff | CotEditorMobile/Sources/TextDocument.swift:42-51 | reading produces a document iff there are contents and one decoder accepts them |
| TextDocument.WriteOutcomes | CotEditorMobile/Sources/TextDocument.swift:53-56 | writing gives the UTF-8 encoding, or empty data if encoding fails |
| TextDocument.WriteThenRead | CotEditorMobile/Sources/TextDocument.swift:42-56 | saving and reopening gives the same document when UTF-8 encoding and decoding are inverse on its text |

## Left out

- Runestone's `TextView` internals, background colours, the editor delegate assignment and the default theme's actual colours and fonts: the widget is a fake class and the default theme a parameter.
- The `language:` argument passed at EditorView.swift:46 has no matching parameter in `RunestoneEditor`'s initializer and `LanguageDetection` is not part of this model; it is an ignored argument of `EditorView.EditorView.Body`.
- WebKit: web view configuration, loading the bundled page, executing scripts and opening URLs in the system browser. Script evaluation is a log; the URL to open is part of the decision.
- The asynchronous navigation delegate and SwiftUI's update scheduling: each delegate call and each view update is one atomic step.
- EditorView.ExternalWriteNotShown: the document framework's own writes (a revert, an iCloud sync) are one `External` event that replaces the text; how and when the framework issues them is not modelled.
- SpikeView's memory probe (`task_info`), its `Double` megabyte value, the timer and the layout and toolbar code.
- Foundation's UTF-8 and ASCII decoders, the UTF-8 encoder and `URL.lastPathComponent`: parameters, not re-verified.
- UUID generation: `Mint` only guarantees a token different from the previous one.
- `ContentView.swift` and `CotEditorMobileApp.swift`: static UI and app bootstrapping.
- SpikeView.SpikeView.HandleTextChange: counts Unicode scalar values, whereas Swift's `String.count` counts grapheme clusters (a CR LF pair or a combining sequence counts once); the two agree on the ASCII, CR-free text the generator produces.
- SpikeView.SpikeView.GenerateTestText: a negative size gives a negative `lineCount` (Swift's division truncates toward zero), so the range `0..<lineCount` traps, and `sizeKB * 1024` overflowing `Int` traps too; both are preconditions here. A size of 0 gives an empty range and an empty text, which is modelled.
- MarkdownPreviewView.ReplaceAll: treats `replacingOccurrences(of:with:)` as literal matching over single Unicode scalars; Foundation's default, non-literal comparison can match whole composed character sequences instead (a backtick or `$` followed by a combining mark, or a CR LF pair, may then go unmatched by the one-character pattern), which is not modelled, so this result holds only for text where every special character stands alone as a cluster.
- MarkdownPreviewView.EscapeForJS: treats `replacingOccurrences(of:with:)` as literal matching over single Unicode scalars; Foundation's default, non-literal comparison can match whole composed character sequences instead (a backtick or `$` followed by a combining mark, or a CR LF pair, may then go unmatched by the one-character pattern), which is not modelled, so this result holds only for text where every special character stands alone as a cluster.
- MarkdownPreviewView.EscapeChar: treats `replacingOccurrences(of:with:)` as literal matching over single Unicode scalars; Foundation's default, non-literal comparison can match whole composed character sequences instead (a backtick or `$` followed by a combining mark, or a CR LF pair, may then go unmatched by the one-character pattern), which is not modelled, so this result holds only for text where every special character stands alone as a cluster.
- MarkdownPreviewView.EscapeForJSIsPerCharacter: treats `replacingOccurrences(of:with:)` as literal matching over single Unicode scalars; Foundation's default, non-literal comparison can match whole composed character sequences instead (a backtick or `$` followed by a combining mark, or a CR LF pair, may then go unmatched by the one-character pattern), which is not modelled, so this result holds only for text where every special character stands alone as a cluster.
- MarkdownPreviewView.EscapeRoundTrip: treats `replacingOccurrences(of:with:)` as literal matching over single Unicode scalars; Foundation's default, non-literal comparison can match whole composed character sequences instead (a backtick or `$` followed by a combining mark, or a CR LF pair, may then go unmatched by the one-character pattern), which is not modelled, so this result holds only for text where every special character stands alone as a cluster.
- MarkdownPreviewView.EscapeInjective: treats `replacingOccurrences(of:with:)` as literal matching over single Unicode scalars; Foundation's default, non-literal comparison can match whole composed character sequences instead (a backtick or `$` followed by a combining mark, or a CR LF pair, may then go unmatched by the one-character pattern), which is not modelled, so this result holds only for text where every special character stands alone as a cluster.
- MarkdownPreviewView.EscapeLeavesPlainText: treats `replacingOccurrences(of:with:)` as literal matching over single Unicode scalars; Foundation's default, non-literal comparison can match whole composed character sequences instead (a backtick or `$` followed by a combining mark, or a CR LF pair, may then go unmatched by the one-character pattern), which is not modelled, so this result holds only for text where every special character stands alone as a cluster.
- MarkdownPreviewView.EscapeHasNoLineBreaks: treats `replacingOccurrences(of:with:)` as literal matching over single Unicode scalars; Foundation's default, non-literal comparison can match whole composed character sequences instead (a backtick or `$` followed by a combining mark, or a CR LF pair, may then go unmatched by the one-character pattern), which is not modelled, so this result holds only for text where every special character stands alone as a cluster.
- MarkdownPreviewView.EscapeIsGuarded: treats `replacingOccurrences(of:with:)` as literal matching over single Unicode scalars; Foundation's default, non-literal comparison can match whole composed character sequences instead (a backtick or `$` followed by a combining mark, or a CR LF pair, may then go unmatched by the one-character pattern), which is not modelled, so this result holds only for text where every special character stands alone as a cluster.
- MarkdownPreviewView.RenderCommandDeliversText: treats `replacingOccurrences(of:with:)` as literal matching over single Unicode scalars; Foundation's default, non-literal comparison can match whole composed character sequences instead (a backtick or `$` followed by a combining mark, or a CR LF pair, may then go unmatched by the one-character pattern), which is not modelled, so this result holds only for text where every special character stands alone as a cluster.
- MarkdownPreviewView.ScanTemplate: numeric, hexadecimal and Unicode escapes and line continuations of template literals are outside the lexer model; the escaped payload never contains them.

=== FILE: cot_editor_theme.dfy ===
/**
 * The highlight theme (CotEditorMobile/Sources/CotEditorTheme.swift): Markdown
 * highlight names get their own colour and font traits, every other name and every
 * other theme property is whatever Runestone's default theme says.
 *
 * The default theme is a parameter, so each fact below holds for any default theme.
 */
module CotEditorTheme {
  import opened Wrappers

  /** The colours the theme names; `Other` stands for any colour the default theme picks. */
  datatype Color = Label | SystemOrange | Link | SecondaryLabel | Other(id: nat)

  /** Runestone's `FontTraits` option set. */
  datatype FontTraits = FontTraits(bold: bool, italic: bool)

  const Bold := FontTraits(true, false)
  const Italic := FontTraits(false, true)

  /** The `Theme` properties that take no highlight name. */
  datatype BaseProperty =
    | Font | TextColor | GutterBackgroundColor | GutterHairlineColor | GutterHairlineWidth
    | LineNumberColor | LineNumberFont | SelectedLineBackgroundColor
    | SelectedLinesLineNumberColor | SelectedLinesGutterBackgroundColor
    | InvisibleCharactersColor | PageGuideHairlineColor | PageGuideHairlineWidth
    | PageGuideBackgroundColor | MarkedTextBackgroundColor | MarkedTextBackgroundCornerRadius

  /** Opaque values of the default theme: fonts, shadows, widths, found-text ranges. */
  datatype Value = Value(id: nat)

  /** Runestone's `DefaultTheme`, as the functions this theme calls on it. */
  datatype DefaultTheme = DefaultTheme(
    property: BaseProperty -> Value,
    textColor: string -> Option<Color>,
    fontTraits: string -> FontTraits,
    shadow: string -> Option<Value>,
    font: string -> Option<Value>,
    highlightedRange: (Value, Value) -> Option<Value>)

  datatype Theme = Theme(defaultTheme: DefaultTheme) {

    function Property(p: BaseProperty): Value
    {
      defaultTheme.property(p)
    }

    /** `textColor(for:)`. */
    function TextColorFor(highlightName: string): Option<Color>
    {
      match highlightName
      case "text.title" => Some(Label)
      case "text.emphasis" => Some(Label)
      case "text.strong" => Some(Label)
      case "text.literal" => Some(SystemOrange)
      case "text.uri" => Some(Link)
      case "text.reference" => Some(SecondaryLabel)
      case _ => defaultTheme.textColor(highlightName)
    }

    /** `fontTraits(for:)`. */
    function FontTraitsFor(highlightName: string): FontTraits
    {
      match highlightName
      case "text.title" => Bold
      case "text.strong" => Bold
      case "text.emphasis" => Italic
      case _ => defaultTheme.fontTraits(highlightName)
    }

    function ShadowFor(highlightName: string): Option<Value>
    {
      defaultTheme.shadow(highlightName)
    }

    function FontFor(highlightName: string): Option<Value>
    {
      defaultTheme.font(highlightName)
    }

    function HighlightedRange(foundTextRange: Value, style: Value): Option<Value>
    {
      defaultTheme.highlightedRange(foundTextRange, style)
    }
  }

  /** The Markdown colour table, as a map. */
  const MarkdownColors: map<string, Color> := map[
    "text.title" := Label, "text.emphasis" := Label, "text.strong" := Label,
    "text.literal" := SystemOrange, "text.uri" := Link, "text.reference" := SecondaryLabel]

  /** The Markdown font-trait table, as a map. */
  const MarkdownTraits: map<string, FontTraits> := map[
    "text.title" := Bold, "text.strong" := Bold, "text.emphasis" := Italic]

  /** The colour lookup agrees with the table and falls back to the default theme. */
  lemma TextColorMatchesTable(theme: Theme, name: string)
    ensures name in MarkdownColors ==> theme.TextColorFor(name) == Some(MarkdownColors[name])
    ensures name !in MarkdownColors ==> theme.TextColorFor(name) == theme.defaultTheme.textColor(name)
  {
  }

  /** The trait lookup agrees with the table and falls back to the default theme. */
  lemma FontTraitsMatchTable(theme: Theme, name: string)
    ensures name in MarkdownTraits ==> theme.FontTraitsFor(name) == MarkdownTraits[name]
    ensures name !in MarkdownTraits ==> theme.FontTraitsFor(name) == theme.defaultTheme.fontTraits(name)
  {
  }

  /** Title, strong and emphasis are drawn in the label colour, bold, bold and italic. */
  lemma ProseStyles(theme: Theme)
    ensures theme.TextColorFor("text.title") == Some(Label) && theme.FontTraitsFor("text.title") == Bold
    ensures theme.TextColorFor("text.strong") == Some(Label) && theme.FontTraitsFor("text.strong") == Bold
    ensures theme.TextColorFor("text.emphasis") == Some(Label) && theme.FontTraitsFor("text.emphasis") == Italic
  {
  }

  /** Literal, URI and reference get their own colour but the default theme's traits. */
  lemma ColouredOnlyNames(theme: Theme)
    ensures theme.TextColorFor("text.literal") == Some(SystemOrange)
    ensures theme.TextColorFor("text.uri") == Some(Link)
    ensures theme.TextColorFor("text.reference") == Some(SecondaryLabel)
    ensures forall name :: name in {"text.literal", "text.uri", "text.reference"} ==>
              theme.FontTraitsFor(name) == theme.defaultTheme.fontTraits(name)
  {
  }

  /** Every name whose traits are overridden also has its colour overridden. */
  lemma OverriddenTraitsHaveColour()
    ensures MarkdownTraits.Keys <= MarkdownColors.Keys
  {
  }

  /** Shadows, fonts, found-text ranges and all base properties are the default theme's. */
  lemma DelegatedMembers(theme: Theme, name: string, p: BaseProperty, range: Value, style: Value)
    ensures theme.ShadowFor(name) == theme.defaultTheme.shadow(name)
    ensures theme.FontFor(name) == theme.defaultTheme.font(name)
    ensures theme.HighlightedRange(range, style) == theme.defaultTheme.highlightedRange(range, style)
    ensures theme.Property(p) == theme.defaultTheme.property(p)
  {
  }
}

=== FILE: editor_view.dfy ===
/**
 * The document editor screen (CotEditorMobile/Sources/EditorView.swift): it seeds the
 * reconciler from the document once, under a token it mints once, and writes every
 * widget edit back into the document.
 */
module EditorView {
  import opened Wrappers
  import RunestoneEditor
  import TextDocument

  /** A file URL; only its last path component is used, through `lastPathComponent`. */
  datatype URL = URL(id: nat)

  /** The `language:` argument the view passes; it reaches nothing in the reconciler. */
  datatype Language = Language(name: string)

  /** The navigation title: the file's last path component, or "Untitled" without a file. */
  function FileName(fileURL: Option<URL>, lastPathComponent: URL -> string): (name: string)
    ensures fileURL.None? ==> name == "Untitled"
    ensures fileURL.Some? ==> name == lastPathComponent(fileURL.value)
  {
    if fileURL.Some? then lastPathComponent(fileURL.value) else "Untitled"
  }

  /** The reconciler request the view's body builds from the document and its token. */
  function EditorFor(document: TextDocument.TextDocument, loadID: RunestoneEditor.Token): (e: RunestoneEditor.Editor)
    ensures e.textToLoad == document.text && e.loadID == loadID
    ensures e.showLineNumbers && e.hasTextChangeHandler
  {
    RunestoneEditor.Editor(document.text, loadID, true, true)
  }

  class EditorView {
    /** The document binding owned by the document framework. */
    var document: TextDocument.TextDocument
    const fileURL: Option<URL>
    /** The `@State` token: minted when the view is created and never reassigned. */
    const loadID: RunestoneEditor.Token

    constructor (document: TextDocument.TextDocument, fileURL: Option<URL>, minted: RunestoneEditor.Token)
      ensures this.document == document && this.fileURL == fileURL && loadID == minted
    {
      this.document := document;
      this.fileURL := fileURL;
      loadID := minted;
    }

    /** `body`: the editor request; the language argument has no effect on it. */
    function Body(language: Option<Language>): (e: RunestoneEditor.Editor)
      reads this
      ensures e == EditorFor(document, loadID)
    {
      EditorFor(document, loadID)
    }

    /** The `onTextChange` closure: the document's text becomes the widget's text. */
    method OnTextChange(newText: string)
      modifies this
      ensures document == old(document).(text := newText)
    {
      document := document.(text := newText);
    }
  }

  // ---------------------------------------------------------------------------
  // The editor session: document and widget together
  // ---------------------------------------------------------------------------

  datatype Session = Session(document: TextDocument.TextDocument, widget: RunestoneEditor.EditorState)

  /**
   * An event of an open editor: the user types, the document framework replaces the
   * document's text from outside the view (a revert, a synced copy), or the framework
   * re-renders the body.
   */
  datatype Event = Typed(text: string) | External(text: string) | Render

  /** Opening: the widget is created from the document under the view's token. */
  function Opened(document: TextDocument.TextDocument, loadID: RunestoneEditor.Token): Session
  {
    Session(document, RunestoneEditor.Created(EditorFor(document, loadID)))
  }

  function Step(s: Session, loadID: RunestoneEditor.Token, ev: Event): Session
  {
    match ev
    case Typed(t) =>
      var widget := RunestoneEditor.Edited(s.widget, t);
      (match RunestoneEditor.Delivered(widget, true)
       case Some(newText) => Session(s.document.(text := newText), widget)
       case None => Session(s.document, widget))
    case External(t) =>
      Session(s.document.(text := t), s.widget)
    case Render =>
      Session(s.document, RunestoneEditor.Reconciled(s.widget, EditorFor(s.document, loadID)))
  }

  function Run(s: Session, loadID: RunestoneEditor.Token, evs: seq<Event>): Session
    decreases |evs|
  {
    if evs == [] then s else Run(Step(s, loadID, evs[0]), loadID, evs[1..])
  }

  /** The user's edits among `evs`, in order, as events of the reconciler. */
  function Typings(evs: seq<Event>): (typed: seq<RunestoneEditor.Event>)
    ensures forall i :: 0 <= i < |typed| ==> typed[i].Typed?
    decreases |evs|
  {
    if evs == [] then []
    else if evs[0].Typed? then [RunestoneEditor.Typed(evs[0].text)] + Typings(evs[1..])
    else Typings(evs[1..])
  }

  /** The last edit after one more event: a typed event replaces the text shown so far. */
  lemma LastTypingStep(shown: string, ev: Event, evs: seq<Event>)
    ensures RunestoneEditor.LastTyped(shown, Typings([ev] + evs)) ==
      RunestoneEditor.LastTyped(if ev.Typed? then ev.text else shown, Typings(evs))
  {
    assert ([ev] + evs)[1..] == evs;
    if ev.Typed? {
      var typed := [RunestoneEditor.Typed(ev.text)] + Typings(evs);
      assert typed[1..] == Typings(evs);
    }
  }

  /** The document's text after `evs`, starting from `stored`: the last write of either kind. */
  function DocumentText(stored: string, evs: seq<Event>): string
    decreases |evs|
  {
    if evs == [] then stored
    else DocumentText(if evs[0].Render? then stored else evs[0].text, evs[1..])
  }

  predicate NoExternalWrites(evs: seq<Event>)
  {
    forall i :: 0 <= i < |evs| ==> !evs[i].External?
  }

  /** The widget holds the view's token, with line numbers, editable, pushed exactly once. */
  predicate Seeded(s: Session, loadID: RunestoneEditor.Token)
  {
    s.widget.lastLoadID == Some(loadID) &&
    s.widget.pushCount == 1 && s.widget.showLineNumbers &&
    s.widget.isEditable && s.widget.isSelectable
  }

  /** The user's edit becomes the document's text, as `OnTextChange` writes it. */
  lemma TypingWritesDocument(s: Session, loadID: RunestoneEditor.Token, t: string)
    ensures Step(s, loadID, Typed(t)).document == s.document.(text := t)
    ensures Step(s, loadID, Typed(t)).widget.text == t
    ensures Step(s, loadID, Typed(t)).widget.pushCount == s.widget.pushCount
    ensures Step(s, loadID, Typed(t)).widget.lastLoadID == s.widget.lastLoadID
  {
  }

  /**
   * A write from outside the view followed by a re-render reaches the document but not
   * the widget: the token is unchanged, so nothing is pushed and the widget keeps its text.
   */
  lemma ExternalWriteNotShown(s: Session, loadID: RunestoneEditor.Token, t: string)
    requires Seeded(s, loadID)
    ensures Run(s, loadID, [External(t), Render]).document.text == t
    ensures Run(s, loadID, [External(t), Render]).widget == s.widget
  {
    assert Run(s, loadID, [External(t), Render]) == Step(Step(s, loadID, External(t)), loadID, Render) by {
      var evs := [External(t), Render];
      assert evs[1..] == [Render] && evs[1..][1..] == [];
      assert Run(s, loadID, evs) == Run(Step(s, loadID, External(t)), loadID, [Render]);
    }
  }

  /**
   * After the document is opened, no interleaving of edits, outside writes and
   * re-renders pushes text into the widget again; the widget shows the user's last edit,
   * the document holds the last write, and without outside writes the two agree.
   */
  lemma {:induction false} EditsNeverRepush(document: TextDocument.TextDocument, loadID: RunestoneEditor.Token, evs: seq<Event>)
    ensures Seeded(Run(Opened(document, loadID), loadID, evs), loadID)
    ensures Run(Opened(document, loadID), loadID, evs).widget.pushCount == 1
    ensures Run(Opened(document, loadID), loadID, evs).widget.text == RunestoneEditor.LastTyped(document.text, Typings(evs))
    ensures Run(Opened(document, loadID), loadID, evs).document.text == DocumentText(document.text, evs)
    ensures NoExternalWrites(evs) ==>
      Run(Opened(document, loadID), loadID, evs).widget.text == Run(Opened(document, loadID), loadID, evs).document.text
  {
    SeedingPreserved(Opened(document, loadID), loadID, evs);
    if NoExternalWrites(evs) {
      LocalTextsAgree(document.text, evs);
    }
  }

  lemma {:induction false} SeedingPreserved(s: Session, loadID: RunestoneEditor.Token, evs: seq<Event>)
    requires Seeded(s, loadID)
    ensures Seeded(Run(s, loadID, evs), loadID)
    ensures Run(s, loadID, evs).widget.text == RunestoneEditor.LastTyped(s.widget.text, Typings(evs))
    ensures Run(s, loadID, evs).document.text == DocumentText(s.document.text, evs)
    decreases |evs|
  {
    if evs != [] {
      assert evs == [evs[0]] + evs[1..];
      LastTypingStep(s.widget.text, evs[0], evs[1..]);
      SeedingPreserved(Step(s, loadID, evs[0]), loadID, evs[1..]);
    }
  }

  /** Without outside writes, the widget's text and the document's text evolve alike. */
  lemma {:induction false} LocalTextsAgree(text: string, evs: seq<Event>)
    requires NoExternalWrites(evs)
    ensures RunestoneEditor.LastTyped(text, Typings(evs)) == DocumentText(text, evs)
    decreases |evs|
  {
    if evs != [] {
      assert !evs[0].External?;
      assert NoExternalWrites(evs[1..]) by {
        forall i | 0 <= i < |evs[1..]| ensures !evs[1..][i].External? {
          assert evs[1..][i] == evs[i + 1];
        }
      }
      assert evs == [evs[0]] + evs[1..];
      LastTypingStep(text, evs[0], evs[1..]);
      LocalTextsAgree(if evs[0].Typed? then evs[0].text else text, evs[1..]);
    }
  }
}

=== FILE: markdown_preview_view.dfy ===
/**
 * The Markdown preview bridge (CotEditorMobile/Sources/MarkdownPreviewView.swift).
 *
 * Three parts: the escaping that embeds the document text in a JavaScript template
 * literal, the page-load gate that queues the latest text until the page is ready,
 * and the navigation policy. The web view is a fake class whose `evaluateJavaScript`
 * appends the command to a log.
 */
module MarkdownPreviewView {
  import opened Wrappers

  // ---------------------------------------------------------------------------
  // Escaping
  // ---------------------------------------------------------------------------

  /** `replacingOccurrences(of:with:)` for a one-character pattern. */
  function ReplaceAll(s: string, c: char, r: string): string
    decreases |s|
  {
    if s == [] then [] else (if s[0] == c then r else [s[0]]) + ReplaceAll(s[1..], c, r)
  }

  /** `escapeForJS`: backslash, backtick, dollar, line feed, carriage return, in that order. */
  function EscapeForJS(s: string): string
  {
    ReplaceAll(ReplaceAll(ReplaceAll(ReplaceAll(ReplaceAll(
      s, '\\', "\\\\"), '`', "\\`"), '$', "\\$"), '\n', "\\n"), '\r', "\\r")
  }

  /** The five characters the escaping rewrites. */
  predicate IsSpecial(c: char)
  {
    c == '\\' || c == '`' || c == '$' || c == '\n' || c == '\r'
  }

  /** The escape of one character, as a single left-to-right pass would write it. */
  function EscapeChar(c: char): (r: string)
    ensures IsSpecial(c) ==> |r| == 2 && r[0] == '\\'
    ensures !IsSpecial(c) ==> r == [c]
  {
    match c
    case '\\' => "\\\\"
    case '`' => "\\`"
    case '$' => "\\$"
    case '\n' => "\\n"
    case '\r' => "\\r"
    case _ => [c]
  }

  /** One-pass, character-by-character escaping. */
  function EscapeEach(s: string): string
    decreases |s|
  {
    if s == [] then [] else EscapeChar(s[0]) + EscapeEach(s[1..])
  }

  /** The character a two-character escape `\d` stands for. */
  function UnescapeChar(d: char): Option<char>
  {
    match d
    case '\\' => Some('\\')
    case '`' => Some('`')
    case '$' => Some('$')
    case 'n' => Some('\n')
    case 'r' => Some('\r')
    case _ => None
  }

  /** Left-to-right unescaping of the five escapes; fails on any other use of `\`. */
  function Unescape(s: string): Option<string>
    decreases |s|
  {
    if s == [] then Some([])
    else if s[0] == '\\' then
      if |s| < 2 then None
      else match (UnescapeChar(s[1]), Unescape(s[2..]))
        case (Some(c), Some(rest)) => Some([c] + rest)
        case _ => None
    else match Unescape(s[1..])
      case Some(rest) => Some([s[0]] + rest)
      case None => None
  }

  lemma {:induction false} ReplaceAllAppend(a: string, b: string, c: char, r: string)
    ensures ReplaceAll(a + b, c, r) == ReplaceAll(a, c, r) + ReplaceAll(b, c, r)
    decreases |a|
  {
    if a == [] {
      assert a + b == b;
    } else {
      var head := if a[0] == c then r else [a[0]];
      assert (a + b)[0] == a[0];
      assert (a + b)[1..] == a[1..] + b;
      ReplaceAllAppend(a[1..], b, c, r);
      calc {
        ReplaceAll(a + b, c, r);
        head + ReplaceAll(a[1..] + b, c, r);
        head + (ReplaceAll(a[1..], c, r) + ReplaceAll(b, c, r));
        (head + ReplaceAll(a[1..], c, r)) + ReplaceAll(b, c, r);
        ReplaceAll(a, c, r) + ReplaceAll(b, c, r);
      }
    }
  }

  lemma ReplaceAllSingle(x: char, c: char, r: string)
    ensures ReplaceAll([x], c, r) == if x == c then r else [x]
  {
    assert [x][1..] == [];
  }

  lemma {:induction false} ReplaceAllAbsent(s: string, c: char, r: string)
    requires c !in s
    ensures ReplaceAll(s, c, r) == s
    decreases |s|
  {
    if s != [] {
      ReplaceAllAbsent(s[1..], c, r);
    }
  }

  /** The chain distributes over concatenation. */
  lemma EscapeForJSAppend(a: string, b: string)
    ensures EscapeForJS(a + b) == EscapeForJS(a) + EscapeForJS(b)
  {
    var a1, b1 := ReplaceAll(a, '\\', "\\\\"), ReplaceAll(b, '\\', "\\\\");
    ReplaceAllAppend(a, b, '\\', "\\\\");
    var a2, b2 := ReplaceAll(a1, '`', "\\`"), ReplaceAll(b1, '`', "\\`");
    ReplaceAllAppend(a1, b1, '`', "\\`");
    var a3, b3 := ReplaceAll(a2, '$', "\\$"), ReplaceAll(b2, '$', "\\$");
    ReplaceAllAppend(a2, b2, '$', "\\$");
    var a4, b4 := ReplaceAll(a3, '\n', "\\n"), ReplaceAll(b3, '\n', "\\n");
    ReplaceAllAppend(a3, b3, '\n', "\\n");
    ReplaceAllAppend(a4, b4, '\r', "\\r");
  }

  /** On a single character the chain produces that character's escape. */
  lemma EscapeForJSChar(c: char)
    ensures EscapeForJS([c]) == EscapeChar(c)
  {
    var s1 := ReplaceAll([c], '\\', "\\\\");
    ReplaceAllSingle(c, '\\', "\\\\");
    var s2 := ReplaceAll(s1, '`', "\\`");
    if c == '\\' { ReplaceAllAbsent(s1, '`', "\\`"); } else { ReplaceAllSingle(c, '`', "\\`"); }
    var s3 := ReplaceAll(s2, '$', "\\$");
    if c == '\\' || c == '`' { ReplaceAllAbsent(s2, '$', "\\$"); } else { ReplaceAllSingle(c, '$', "\\$"); }
    var s4 := ReplaceAll(s3, '\n', "\\n");
    if c == '\\' || c == '`' || c == '$' { ReplaceAllAbsent(s3, '\n', "\\n"); } else { ReplaceAllSingle(c, '\n', "\\n"); }
    if c == '\\' || c == '`' || c == '$' || c == '\n' { ReplaceAllAbsent(s4, '\r', "\\r"); } else { ReplaceAllSingle(c, '\r', "\\r"); }
  }

  /**
   * The ordered chain of five replacements equals one left-to-right pass that escapes
   * each character on its own: no later replacement touches what an earlier one wrote.
   */
  lemma {:induction false} EscapeForJSIsPerCharacter(s: string)
    ensures EscapeForJS(s) == EscapeEach(s)
    decreases |s|
  {
    if s != [] {
      assert s == [s[0]] + s[1..];
      EscapeForJSAppend([s[0]], s[1..]);
      EscapeForJSChar(s[0]);
      EscapeForJSIsPerCharacter(s[1..]);
    }
  }

  lemma {:induction false} EscapeEachAppend(a: string, b: string)
    ensures EscapeEach(a + b) == EscapeEach(a) + EscapeEach(b)
    decreases |a|
  {
    if a == [] {
      assert a + b == b;
    } else {
      assert (a + b)[0] == a[0];
      assert (a + b)[1..] == a[1..] + b;
      EscapeEachAppend(a[1..], b);
      calc {
        EscapeEach(a + b);
        EscapeChar(a[0]) + EscapeEach(a[1..] + b);
        EscapeChar(a[0]) + (EscapeEach(a[1..]) + EscapeEach(b));
        (EscapeChar(a[0]) + EscapeEach(a[1..])) + EscapeEach(b);
      }
    }
  }

  /** Unescaping reads one escaped character back as that character. */
  lemma UnescapeEscapedChar(c: char, rest: string, r: string)
    requires Unescape(rest) == Some(r)
    ensures Unescape(EscapeChar(c) + rest) == Some([c] + r)
  {
    var x := EscapeChar(c) + rest;
    if IsSpecial(c) {
      assert x[0] == '\\' && |x| >= 2 && x[2..] == rest;
      assert UnescapeChar(x[1]) == Some(c);
    } else {
      assert x[0] == c && x[1..] == rest;
    }
  }

  lemma {:induction false} EscapeEachRoundTrip(s: string)
    ensures Unescape(EscapeEach(s)) == Some(s)
    decreases |s|
  {
    if s != [] {
      EscapeEachRoundTrip(s[1..]);
      UnescapeEscapedChar(s[0], EscapeEach(s[1..]), s[1..]);
      assert s == [s[0]] + s[1..];
    }
  }

  /** Unescaping the escaped text gives the original text back. */
  lemma EscapeRoundTrip(s: string)
    ensures Unescape(EscapeForJS(s)) == Some(s)
  {
    EscapeForJSIsPerCharacter(s);
    EscapeEachRoundTrip(s);
  }

  /** Different texts have different escapes. */
  lemma EscapeInjective(a: string, b: string)
    requires EscapeForJS(a) == EscapeForJS(b)
    ensures a == b
  {
    EscapeRoundTrip(a);
    EscapeRoundTrip(b);
  }

  /** Text with none of the five characters is left as it is. */
  lemma {:induction false} EscapeLeavesPlainText(s: string)
    requires forall i :: 0 <= i < |s| ==> !IsSpecial(s[i])
    ensures EscapeForJS(s) == s
  {
    EscapeForJSIsPerCharacter(s);
    PlainEscapeEach(s);
  }

  lemma {:induction false} PlainEscapeEach(s: string)
    requires forall i :: 0 <= i < |s| ==> !IsSpecial(s[i])
    ensures EscapeEach(s) == s
    decreases |s|
  {
    if s != [] {
      assert forall i :: 0 <= i < |s[1..]| ==> !IsSpecial(s[1..][i]) by {
        forall i | 0 <= i < |s[1..]| ensures !IsSpecial(s[1..][i]) { assert s[1..][i] == s[i + 1]; }
      }
      PlainEscapeEach(s[1..]);
      assert s == [s[0]] + s[1..];
    }
  }

  lemma {:induction false} EscapeEachNoLineBreaks(s: string)
    ensures '\n' !in EscapeEach(s) && '\r' !in EscapeEach(s)
    decreases |s|
  {
    if s != [] {
      EscapeEachNoLineBreaks(s[1..]);
    }
  }

  /** The escaped text holds no raw line feed and no raw carriage return. */
  lemma EscapeHasNoLineBreaks(s: string)
    ensures forall i :: 0 <= i < |EscapeForJS(s)| ==> EscapeForJS(s)[i] != '\n' && EscapeForJS(s)[i] != '\r'
  {
    EscapeForJSIsPerCharacter(s);
    EscapeEachNoLineBreaks(s);
  }

  /** The number of backslashes immediately before position `i` of `s`. */
  function BackslashesBefore(s: string, i: nat): nat
    requires i <= |s|
  {
    if i == 0 || s[i - 1] != '\\' then 0 else 1 + BackslashesBefore(s, i - 1)
  }

  /** Every backtick and every dollar sign of `s` follows an odd run of backslashes. */
  predicate Guarded(s: string)
  {
    forall i :: 0 <= i < |s| && (s[i] == '`' || s[i] == '$') ==> BackslashesBefore(s, i) % 2 == 1
  }

  lemma {:induction false} BackslashesBeforePrefix(a: string, b: string, i: nat)
    requires i <= |a|
    ensures BackslashesBefore(a + b, i) == BackslashesBefore(a, i)
  {
    if i > 0 && a[i - 1] == '\\' {
      BackslashesBeforePrefix(a, b, i - 1);
    }
  }

  /** Appending one escaped character keeps the trailing run of backslashes even. */
  lemma TrailingRunAppend(e: string, c: char)
    requires BackslashesBefore(e, |e|) % 2 == 0
    ensures BackslashesBefore(e + EscapeChar(c), |e + EscapeChar(c)|) % 2 == 0
  {
    var x := EscapeChar(c);
    var all := e + x;
    if IsSpecial(c) {
      assert all[|e|] == '\\';
      BackslashesBeforePrefix(e, x, |e|);
      assert BackslashesBefore(all, |e| + 1) == 1 + BackslashesBefore(e, |e|);
      if x[1] == '\\' {
        assert all[|e| + 1] == '\\';
        assert BackslashesBefore(all, |e| + 2) == 1 + BackslashesBefore(all, |e| + 1);
      } else {
        assert all[|e| + 1] != '\\';
      }
    } else {
      assert all[|e|] == c;
    }
  }

  /** Appending one escaped character to a guarded text whose trailing run is even keeps it guarded. */
  lemma GuardedAppend(e: string, c: char)
    requires Guarded(e) && BackslashesBefore(e, |e|) % 2 == 0
    ensures Guarded(e + EscapeChar(c))
  {
    var x := EscapeChar(c);
    var all := e + x;
    forall i | 0 <= i < |e| && (all[i] == '`' || all[i] == '$')
      ensures BackslashesBefore(all, i) % 2 == 1
    {
      BackslashesBeforePrefix(e, x, i);
      assert all[i] == e[i];
    }
    if IsSpecial(c) {
      GuardedAppendSpecial(e, x);
    } else {
      assert all[|e|] == c && |all| == |e| + 1;
    }
  }

  /** The escape of a special character puts an odd run before its second character. */
  lemma GuardedAppendSpecial(e: string, x: string)
    requires BackslashesBefore(e, |e|) % 2 == 0
    requires |x| == 2 && x[0] == '\\'
    ensures (e + x)[|e|] == '\\'
    ensures BackslashesBefore(e + x, |e| + 1) % 2 == 1
  {
    BackslashesBeforePrefix(e, x, |e|);
    assert (e + x)[|e|] == '\\';
  }

  lemma {:induction false} EscapeEachGuarded(s: string)
    ensures Guarded(EscapeEach(s))
    ensures BackslashesBefore(EscapeEach(s), |EscapeEach(s)|) % 2 == 0
    decreases |s|
  {
    if s != [] {
      var p, c := s[..|s| - 1], s[|s| - 1];
      assert s == p + [c];
      EscapeEachAppend(p, [c]);
      assert EscapeEach([c]) == EscapeChar(c) + EscapeEach([]);
      assert EscapeEach(s) == EscapeEach(p) + EscapeChar(c);
      EscapeEachGuarded(p);
      GuardedAppend(EscapeEach(p), c);
      TrailingRunAppend(EscapeEach(p), c);
    }
  }

  /** In the escaped text every backtick and dollar sign is itself escaped. */
  lemma EscapeIsGuarded(s: string)
    ensures Guarded(EscapeForJS(s))
  {
    EscapeForJSIsPerCharacter(s);
    EscapeEachGuarded(s);
  }

  // ---------------------------------------------------------------------------
  // The render command, read back by a template-literal lexer
  // ---------------------------------------------------------------------------

  const RenderPrefix: string := "renderMarkdown(`"
  const RenderSuffix: string := "`);"

  /** The JavaScript sent to the page to render `markdown`. */
  function RenderCommand(markdown: string): string
  {
    RenderPrefix + EscapeForJS(markdown) + RenderSuffix
  }

  /** The result of lexing the characters of a template literal after its opening backtick. */
  datatype TemplateScan =
    | Closed(cooked: string, rest: string)   // reached the closing backtick
    | Substitution                            // met `${`: an interpolation starts
    | Unterminated                            // ran out of input
    | OutsideModel                            // an escape this lexer does not cover

  function Prepend(c: char, r: TemplateScan): TemplateScan
  {
    if r.Closed? then Closed([c] + r.cooked, r.rest) else r
  }

  /** The character escapes of a template literal, as far as they are modelled. */
  function CookEscape(d: char): Option<char>
  {
    match d
    case 'n' => Some('\n')
    case 'r' => Some('\r')
    case 't' => Some('\t')
    case 'b' => Some('\U{0008}')
    case 'f' => Some('\U{000C}')
    case 'v' => Some('\U{000B}')
    case '\\' => Some('\\')
    case '\'' => Some('\'')
    case '"' => Some('"')
    case _ =>
      if '0' <= d <= '9' || d == 'x' || d == 'u' || d == '\n' || d == '\r' || d == '\U{2028}' || d == '\U{2029}'
      then None else Some(d)
  }

  /**
   * Template characters as section 12.9.6 of ECMA-262 (2024) lexes them, with their
   * cooked value: a backtick ends the literal, `${` begins a substitution, a backslash
   * escape stands for one character, and a raw carriage return (alone or before a line
   * feed) is read as a line feed. Numeric, hexadecimal and Unicode escapes and line
   * continuations are outside this model.
   */
  function ScanTemplate(s: string): TemplateScan
    decreases |s|
  {
    if s == [] then Unterminated
    else if s[0] == '`' then Closed([], s[1..])
    else if s[0] == '$' && |s| > 1 && s[1] == '{' then Substitution
    else if s[0] == '\\' then
      if |s| < 2 then Unterminated
      else match CookEscape(s[1])
        case None => OutsideModel
        case Some(c) => Prepend(c, ScanTemplate(s[2..]))
    else if s[0] == '\r' then
      if |s| > 1 && s[1] == '\n' then Prepend('\n', ScanTemplate(s[2..]))
      else Prepend('\n', ScanTemplate(s[1..]))
    else Prepend(s[0], ScanTemplate(s[1..]))
  }

  /** The lexer reads one escaped character back as that character. */
  lemma ScanEscapedChar(c: char, rest: string)
    ensures ScanTemplate(EscapeChar(c) + rest) == Prepend(c, ScanTemplate(rest))
  {
    var x := EscapeChar(c) + rest;
    if IsSpecial(c) {
      assert x[0] == '\\' && |x| >= 2 && x[2..] == rest;
      assert CookEscape(x[1]) == Some(c);
    } else {
      assert x[0] == c && x[1..] == rest;
    }
  }

  lemma {:induction false} ScanEscaped(s: string, tail: string)
    ensures ScanTemplate(EscapeEach(s) + "`" + tail) == Closed(s, tail)
    decreases |s|
  {
    if s == [] {
      assert EscapeEach(s) + "`" + tail == "`" + tail;
    } else {
      var rest := EscapeEach(s[1..]) + "`" + tail;
      assert EscapeEach(s) + "`" + tail == EscapeChar(s[0]) + rest;
      ScanEscaped(s[1..], tail);
      ScanEscapedChar(s[0], rest);
      assert s == [s[0]] + s[1..];
    }
  }

  /**
   * The page reads the render command's template literal as exactly the document
   * text: the literal closes at the backtick of the suffix, no substitution starts,
   * and the string passed to `renderMarkdown` is `markdown`.
   */
  lemma RenderCommandDeliversText(markdown: string)
    ensures ScanTemplate(RenderCommand(markdown)[|RenderPrefix|..]) == Closed(markdown, ");")
  {
    EscapeForJSIsPerCharacter(markdown);
    ScanEscaped(markdown, ");");
    assert RenderCommand(markdown)[|RenderPrefix|..] == EscapeEach(markdown) + "`" + ");";
  }

  /** The same chain with the backtick replaced before the backslash. */
  function EscapeBacktickFirst(s: string): string
  {
    ReplaceAll(ReplaceAll(ReplaceAll(ReplaceAll(ReplaceAll(
      s, '`', "\\`"), '\\', "\\\\"), '$', "\\$"), '\n', "\\n"), '\r', "\\r")
  }

  /** With the first two replacements swapped, a lone backtick closes the literal early. */
  lemma BacktickFirstReopensInjection()
    ensures EscapeBacktickFirst("`") == "\\\\`"
    ensures ScanTemplate(EscapeBacktickFirst("`") + RenderSuffix) == Closed("\\", RenderSuffix)
  {
    var t := "\\\\`";
    BacktickFirstChain();
    var js := t + RenderSuffix;
    assert js[0] == '\\' && js[1] == '\\';
    assert js[2..] == "`" + RenderSuffix;
    assert ScanTemplate(js[2..]) == Closed([], RenderSuffix);
  }

  lemma BacktickFirstChain()
    ensures EscapeBacktickFirst("`") == "\\\\`"
  {
    var t := "\\\\`";
    ReplaceAllSingle('`', '`', "\\`");
    assert "\\`" == ['\\'] + ['`'];
    ReplaceAllAppend(['\\'], ['`'], '\\', "\\\\");
    ReplaceAllSingle('\\', '\\', "\\\\");
    ReplaceAllSingle('`', '\\', "\\\\");
    assert ReplaceAll("\\`", '\\', "\\\\") == t;
    ReplaceAllAbsent(t, '$', "\\$");
    ReplaceAllAbsent(t, '\n', "\\n");
    ReplaceAllAbsent(t, '\r', "\\r");
  }

  // ---------------------------------------------------------------------------
  // The page-load gate
  // ---------------------------------------------------------------------------

  /** The coordinator's two fields and the web view's command log. */
  datatype PreviewState = PreviewState(isPageLoaded: bool, pendingMarkdown: Option<string>, log: seq<string>)

  /** After `makeUIView`: the page is loading and the initial text waits. */
  function Made(markdown: string): PreviewState
  {
    PreviewState(false, Some(markdown), [])
  }

  /** `updateUIView` with the view's current text. */
  function Updated(s: PreviewState, markdown: string): PreviewState
  {
    if s.isPageLoaded then s.(log := s.log + [RenderCommand(markdown)])
    else s.(pendingMarkdown := Some(markdown))
  }

  /** The page's `didFinish` navigation callback. */
  function Finished(s: PreviewState): PreviewState
  {
    match s.pendingMarkdown
    case Some(markdown) => PreviewState(true, None, s.log + [RenderCommand(markdown)])
    case None => s.(isPageLoaded := true)
  }

  datatype PreviewEvent = Update(markdown: string) | DidFinish

  function PreviewStep(s: PreviewState, ev: PreviewEvent): PreviewState
  {
    match ev
    case Update(md) => Updated(s, md)
    case DidFinish => Finished(s)
  }

  function PreviewRun(s: PreviewState, evs: seq<PreviewEvent>): PreviewState
    decreases |evs|
  {
    if evs == [] then s else PreviewRun(PreviewStep(s, evs[0]), evs[1..])
  }

  function UpdateAll(s: PreviewState, texts: seq<string>): PreviewState
    decreases |texts|
  {
    if texts == [] then s else UpdateAll(Updated(s, texts[0]), texts[1..])
  }

  /** Before the page loads nothing is rendered and some text is waiting; after, nothing waits. */
  predicate Gated(s: PreviewState)
  {
    (!s.isPageLoaded ==> s.log == [] && s.pendingMarkdown.Some?) &&
    (s.isPageLoaded ==> s.pendingMarkdown.None?)
  }

  /** Before load an update only replaces the waiting text; after load it renders at once. */
  lemma UpdateGate(s: PreviewState, markdown: string)
    ensures !s.isPageLoaded ==> Updated(s, markdown) == s.(pendingMarkdown := Some(markdown))
    ensures s.isPageLoaded ==> Updated(s, markdown) == s.(log := s.log + [RenderCommand(markdown)])
  {
  }

  /** `didFinish` renders the waiting text once; a second call renders nothing. */
  lemma FinishFlushesOnce(s: PreviewState)
    ensures Finished(s).isPageLoaded && Finished(s).pendingMarkdown.None?
    ensures s.pendingMarkdown.Some? ==>
              Finished(s).log == s.log + [RenderCommand(s.pendingMarkdown.value)]
    ensures s.pendingMarkdown.None? ==> Finished(s).log == s.log
    ensures Finished(Finished(s)) == Finished(s)
  {
  }

  /** Any sequence of updates and load callbacks after creation keeps the gate. */
  lemma {:induction false} GateHolds(s: PreviewState, evs: seq<PreviewEvent>)
    requires Gated(s)
    ensures Gated(PreviewRun(s, evs))
    ensures |PreviewRun(s, evs).log| >= |s.log|
    decreases |evs|
  {
    if evs != [] {
      GateHolds(PreviewStep(s, evs[0]), evs[1..]);
    }
  }

  lemma {:induction false} UpdatesBeforeLoad(s: PreviewState, texts: seq<string>)
    requires !s.isPageLoaded && texts != []
    ensures UpdateAll(s, texts) == s.(pendingMarkdown := Some(texts[|texts| - 1]))
    decreases |texts|
  {
    if |texts| > 1 {
      UpdatesBeforeLoad(Updated(s, texts[0]), texts[1..]);
    }
  }

  /**
   * Updates made while the page loads collapse to one render of the last text
   * when the page finishes loading.
   */
  lemma PendingFlushRendersLast(markdown: string, texts: seq<string>)
    ensures var last := if texts == [] then markdown else texts[|texts| - 1];
      Finished(UpdateAll(Made(markdown), texts)) == PreviewState(true, None, [RenderCommand(last)])
  {
    if texts != [] {
      UpdatesBeforeLoad(Made(markdown), texts);
    }
  }

  // ---------------------------------------------------------------------------
  // Navigation policy
  // ---------------------------------------------------------------------------

  datatype NavigationType = LinkActivated | FormSubmitted | BackForward | Reload | FormResubmitted | Other

  datatype NavigationAction = NavigationAction(navigationType: NavigationType, url: Option<string>)

  datatype Policy = Allow | Cancel

  /** The policy, and the URL handed to the system to open outside the app, if any. */
  datatype Decision = Decision(policy: Policy, openExternally: Option<string>)

  /** `decidePolicyFor`: link taps with a URL leave the app; everything else loads. */
  function DecidePolicy(action: NavigationAction): (d: Decision)
    ensures d.policy == Cancel <==> (action.navigationType == LinkActivated && action.url.Some?)
    ensures d.policy == Cancel ==> d.openExternally == action.url
    ensures d.policy == Allow ==> d.openExternally.None?
  {
    if action.navigationType == LinkActivated && action.url.Some? then Decision(Cancel, action.url)
    else Decision(Allow, None)
  }

  // ---------------------------------------------------------------------------
  // The objects
  // ---------------------------------------------------------------------------

  /** A fake `WKWebView`: remembers every script it was asked to evaluate. */
  class WebView {
    var log: seq<string>

    constructor ()
      ensures log == []
    {
      log := [];
    }

    method EvaluateJavaScript(js: string)
      modifies this
      ensures log == old(log) + [js]
    {
      log := log + [js];
    }
  }

  class Coordinator {
    var isPageLoaded: bool
    var pendingMarkdown: Option<string>

    constructor ()
      ensures !isPageLoaded && pendingMarkdown.None?
    {
      isPageLoaded := false;
      pendingMarkdown := None;
    }

    /** `webView(_:didFinish:)`. */
    method DidFinish(webView: WebView)
      modifies this, webView
      ensures State(this, webView) == Finished(old(State(this, webView)))
    {
      isPageLoaded := true;
      if pendingMarkdown.Some? {
        var markdown := pendingMarkdown.value;
        pendingMarkdown := None;
        webView.EvaluateJavaScript(RenderCommand(markdown));
      }
    }

    /** `webView(_:decidePolicyFor:)`: the decision; opening the URL is left to the caller. */
    method DecidePolicyFor(action: NavigationAction) returns (d: Decision)
      ensures d == DecidePolicy(action)
      ensures d.policy == Cancel ==> d.openExternally == action.url && action.navigationType == LinkActivated
    {
      d := DecidePolicy(action);
    }
  }

  function State(c: Coordinator, webView: WebView): PreviewState
    reads c, webView
  {
    PreviewState(c.isPageLoaded, c.pendingMarkdown, webView.log)
  }

  /** `makeUIView`: creates the web view, starts loading the page and queues the text. */
  method MakeUIView(markdown: string, c: Coordinator) returns (webView: WebView)
    requires !c.isPageLoaded
    modifies c
    ensures fresh(webView)
    ensures State(c, webView) == Made(markdown)
  {
    webView := new WebView();
    c.pendingMarkdown := Some(markdown);
  }

  /** `updateUIView`: renders now if the page is ready, otherwise replaces the waiting text. */
  method UpdateUIView(markdown: string, webView: WebView, c: Coordinator)
    modifies c, webView
    ensures State(c, webView) == Updated(old(State(c, webView)), markdown)
  {
    if c.isPageLoaded {
      CallRenderMarkdown(webView, markdown);
    } else {
      c.pendingMarkdown := Some(markdown);
    }
  }

  method CallRenderMarkdown(webView: WebView, markdown: string)
    modifies webView
    ensures webView.log == old(webView.log) + [RenderCommand(markdown)]
  {
    webView.EvaluateJavaScript(RenderCommand(markdown));
  }
}

=== FILE: runestone_editor.dfy ===
/**
 * The load-token reconciler between a host view and Runestone's native `TextView`
 * (CotEditorMobile/Sources/RunestoneEditor.swift).
 *
 * The widget is a fake class that records what the reconciler does to it: its text,
 * its display flags and `pushCount`, the number of programmatic text assignments.
 * `makeUIView`, `updateUIView` and a user edit followed by the delegate call are tied
 * to the pure step functions `Created`, `Reconciled` and `Edited`/`Delivered` on
 * `EditorState`; the widget's own setters state their field changes directly. The
 * reconciler's guarantees are proved as lemmas about the step functions.
 */
module RunestoneEditor {
  import opened Wrappers

  /** A load token (a UUID in the app); only equality matters. */
  type Token = nat

  /** Mints a new token; stands in for `UUID()`, of which only the difference from the previous token is used. */
  function Mint(previous: Token): (t: Token)
    ensures t != previous
  {
    previous + 1
  }

  /** The `RunestoneEditor` view value: what the host asks the widget to show. */
  datatype Editor = Editor(
    textToLoad: string,
    loadID: Token,
    showLineNumbers: bool,
    hasTextChangeHandler: bool)

  /**
   * The initializer with its defaults: empty text, line numbers on, no change
   * handler, and a freshly minted token when no `loadID` is given (`minted`
   * is the value `UUID()` would produce).
   */
  function Make(
    minted: Token,
    textToLoad: string := "",
    loadID: Option<Token> := None,
    showLineNumbers: bool := true,
    hasTextChangeHandler: bool := false): (e: Editor)
    ensures e.textToLoad == textToLoad && e.showLineNumbers == showLineNumbers
    ensures e.hasTextChangeHandler == hasTextChangeHandler
    ensures e.loadID == if loadID.Some? then loadID.value else minted
  {
    Editor(textToLoad, if loadID.Some? then loadID.value else minted, showLineNumbers, hasTextChangeHandler)
  }

  /** What the widget and its coordinator hold between reconciliation passes. */
  datatype EditorState = EditorState(
    text: string,
    showLineNumbers: bool,
    isEditable: bool,
    isSelectable: bool,
    pushCount: nat,
    lastLoadID: Option<Token>)

  /** State right after `makeUIView`: one push of `textToLoad`, token recorded. */
  function Created(e: Editor): EditorState
  {
    EditorState(e.textToLoad, e.showLineNumbers, true, true, 1, Some(e.loadID))
  }

  /** One `updateUIView` pass. */
  function Reconciled(s: EditorState, e: Editor): EditorState
  {
    var s' := s.(showLineNumbers := e.showLineNumbers);
    if s.lastLoadID != Some(e.loadID) then
      s'.(lastLoadID := Some(e.loadID), text := e.textToLoad, pushCount := s.pushCount + 1)
    else
      s'
  }

  /** A widget-originated edit: the user typed, so the widget's text is now `t`. */
  function Edited(s: EditorState, t: string): EditorState
  {
    s.(text := t)
  }

  /** What `textViewDidChange` hands to the `onTextChange` handler, if there is one. */
  function Delivered(s: EditorState, hasTextChangeHandler: bool): Option<string>
  {
    if hasTextChangeHandler then Some(s.text) else None
  }

  /** A reconciliation-pass event seen by the widget. */
  datatype Event = Typed(text: string) | Update(editor: Editor)

  function Step(s: EditorState, ev: Event): EditorState
  {
    match ev
    case Typed(t) => Edited(s, t)
    case Update(e) => Reconciled(s, e)
  }

  function Run(s: EditorState, evs: seq<Event>): EditorState
    decreases |evs|
  {
    if evs == [] then s else Run(Step(s, evs[0]), evs[1..])
  }

  /** Every update in `evs` requests token `t`. */
  predicate AllRequest(evs: seq<Event>, t: Token)
  {
    forall i :: 0 <= i < |evs| && evs[i].Update? ==> evs[i].editor.loadID == t
  }

  // ---------------------------------------------------------------------------
  // The reconciler's guarantees
  // ---------------------------------------------------------------------------

  lemma CreatedShowsRequest(e: Editor)
    ensures Created(e).text == e.textToLoad && Created(e).showLineNumbers == e.showLineNumbers
    ensures Created(e).isEditable && Created(e).isSelectable
    ensures Created(e).lastLoadID == Some(e.loadID) && Created(e).pushCount == 1
  {
  }

  /** A pass replaces the text iff the requested token differs from the applied one. */
  lemma PushIffTokenDiffers(s: EditorState, e: Editor)
    ensures var r := Reconciled(s, e);
      (r.pushCount == s.pushCount + 1 <==> s.lastLoadID != Some(e.loadID)) &&
      (r.pushCount == s.pushCount <==> s.lastLoadID == Some(e.loadID))
    ensures s.lastLoadID != Some(e.loadID) ==> Reconciled(s, e).text == e.textToLoad
    ensures s.lastLoadID == Some(e.loadID) ==> Reconciled(s, e).text == s.text
    ensures Reconciled(s, e).lastLoadID == Some(e.loadID)
  {
  }

  /**
   * A request built with the default token on every pass (no `loadID` given) carries a
   * new token each time, so the second pass pushes its text again even when the text
   * is unchanged.
   */
  lemma DefaultTokenRepushes(s: EditorState, text: string, m1: Token, m2: Token)
    requires m1 != m2
    ensures var second := Reconciled(Reconciled(s, Make(m1, text)), Make(m2, text));
      second.pushCount == Reconciled(s, Make(m1, text)).pushCount + 1 &&
      second.text == text && second.lastLoadID == Some(m2)
  {
  }

  /** Reconciling twice with the same request is the same as reconciling once. */
  lemma ReconcileIdempotent(s: EditorState, e: Editor)
    ensures Reconciled(Reconciled(s, e), e) == Reconciled(s, e)
  {
  }

  /** The line-number flag is applied on every pass and never causes a push. */
  lemma LineNumbersNeverPush(s: EditorState, e: Editor, flag: bool)
    ensures Reconciled(s, e.(showLineNumbers := flag)).showLineNumbers == flag
    ensures Reconciled(s, e.(showLineNumbers := flag)) ==
            Reconciled(s, e).(showLineNumbers := flag)
  {
  }

  /**
   * The edit round trip: after the user types `t`, the handler receives exactly `t`,
   * the token is untouched, and the next pass with the same request keeps `t`.
   */
  lemma EditRoundTrip(s: EditorState, e: Editor, t: string)
    requires s.lastLoadID == Some(e.loadID)
    ensures Delivered(Edited(s, t), true) == Some(t)
    ensures Delivered(Edited(s, t), false) == None
    ensures Edited(s, t).lastLoadID == s.lastLoadID && Edited(s, t).pushCount == s.pushCount
    ensures Reconciled(Edited(s, t), e).text == t
    ensures Reconciled(Edited(s, t), e).pushCount == s.pushCount
  {
  }

  /**
   * Once token `t` is applied, no sequence of user edits and passes that keep
   * requesting `t` pushes text again, and the widget shows the last text typed.
   */
  lemma {:induction false} StableTokenNeverRepushes(s: EditorState, t: Token, evs: seq<Event>)
    requires s.lastLoadID == Some(t)
    requires AllRequest(evs, t)
    ensures Run(s, evs).pushCount == s.pushCount
    ensures Run(s, evs).lastLoadID == Some(t)
    ensures Run(s, evs).text == LastTyped(s.text, evs)
    decreases |evs|
  {
    if evs != [] {
      assert AllRequest(evs[1..], t) by {
        forall i | 0 <= i < |evs[1..]| && evs[1..][i].Update?
          ensures evs[1..][i].editor.loadID == t
        {
          assert evs[1..][i] == evs[i + 1];
        }
      }
      StableTokenNeverRepushes(Step(s, evs[0]), t, evs[1..]);
    }
  }

  /** The text of the last `Typed` event in `evs`, or `text` if there is none. */
  function LastTyped(text: string, evs: seq<Event>): string
    decreases |evs|
  {
    if evs == [] then text
    else LastTyped(if evs[0].Typed? then evs[0].text else text, evs[1..])
  }

  // ---------------------------------------------------------------------------
  // The objects
  // ---------------------------------------------------------------------------

  /** A fake Runestone `TextView`: the properties the reconciler sets, and a push counter. */
  class TextView {
    var text: string
    var showLineNumbers: bool
    var isEditable: bool
    var isSelectable: bool
    var pushCount: nat

    constructor ()
      ensures text == "" && pushCount == 0
    {
      text := "";
      showLineNumbers := false;
      isEditable := true;
      isSelectable := true;
      pushCount := 0;
    }

    /** A programmatic `textView.text = ...` assignment: replaces the content. */
    method SetText(t: string)
      modifies this
      ensures text == t && pushCount == old(pushCount) + 1
      ensures showLineNumbers == old(showLineNumbers)
      ensures isEditable == old(isEditable) && isSelectable == old(isSelectable)
    {
      text := t;
      pushCount := pushCount + 1;
    }

    /** The user edits the text inside the widget; not a push. */
    method UserEdit(t: string)
      modifies this
      ensures text == t && pushCount == old(pushCount)
      ensures showLineNumbers == old(showLineNumbers)
      ensures isEditable == old(isEditable) && isSelectable == old(isSelectable)
    {
      text := t;
    }
  }

  /** The view's coordinator: the widget's delegate and the holder of the applied token. */
  class Coordinator {
    const hasTextChangeHandler: bool
    var lastLoadID: Option<Token>

    constructor (hasTextChangeHandler: bool)
      ensures this.hasTextChangeHandler == hasTextChangeHandler && lastLoadID == None
    {
      this.hasTextChangeHandler := hasTextChangeHandler;
      lastLoadID := None;
    }

    /** `textViewDidChange`: passes the widget's current text to the handler, if any. */
    method TextViewDidChange(tv: TextView) returns (delivered: Option<string>)
      ensures delivered == Delivered(Snapshot(tv, this), hasTextChangeHandler)
      ensures hasTextChangeHandler ==> delivered == Some(tv.text)
      ensures !hasTextChangeHandler ==> delivered == None
    {
      delivered := Delivered(Snapshot(tv, this), hasTextChangeHandler);
    }
  }

  /** The combined state of a widget and its coordinator. */
  function Snapshot(tv: TextView, c: Coordinator): EditorState
    reads tv, c
  {
    EditorState(tv.text, tv.showLineNumbers, tv.isEditable, tv.isSelectable, tv.pushCount, c.lastLoadID)
  }

  /** `makeCoordinator`: the coordinator keeps the handler of the first view value. */
  method MakeCoordinator(e: Editor) returns (c: Coordinator)
    ensures fresh(c) && c.lastLoadID == None
    ensures c.hasTextChangeHandler == e.hasTextChangeHandler
  {
    c := new Coordinator(e.hasTextChangeHandler);
  }

  /** `makeUIView`: creates the widget, seeds it and records the token. */
  method MakeUIView(e: Editor, c: Coordinator) returns (tv: TextView)
    modifies c
    ensures fresh(tv)
    ensures Snapshot(tv, c) == Created(e)
  {
    tv := new TextView();
    tv.SetText(e.textToLoad);
    tv.showLineNumbers := e.showLineNumbers;
    tv.isEditable := true;
    tv.isSelectable := true;
    c.lastLoadID := Some(e.loadID);
  }

  /** `updateUIView`: re-applies the line-number flag, and the text only on a new token. */
  method UpdateUIView(e: Editor, tv: TextView, c: Coordinator)
    modifies tv, c
    ensures Snapshot(tv, c) == Reconciled(old(Snapshot(tv, c)), e)
  {
    tv.showLineNumbers := e.showLineNumbers;
    if c.lastLoadID != Some(e.loadID) {
      c.lastLoadID := Some(e.loadID);
      tv.SetText(e.textToLoad);
    }
  }

  /**
   * The user types `t` in the widget, which then calls its delegate's
   * `textViewDidChange`: the widget moves by `Edited`, and the handler, if any,
   * receives exactly `t`.
   */
  method UserTypes(tv: TextView, c: Coordinator, t: string) returns (delivered: Option<string>)
    modifies tv
    ensures Snapshot(tv, c) == Edited(old(Snapshot(tv, c)), t)
    ensures delivered == Delivered(Edited(old(Snapshot(tv, c)), t), c.hasTextChangeHandler)
    ensures c.hasTextChangeHandler ==> delivered == Some(t)
  {
    tv.UserEdit(t);
    delivered := c.TextViewDidChange(tv);
  }
}

=== FILE: spike_view.dfy ===
/**
 * The performance spike screen (CotEditorMobile/Sources/SpikeView.swift): it generates
 * or clears large texts, each time under a new load token, and counts the characters
 * of what the widget reports back.
 */
module SpikeView {
  import opened Wrappers
  import RunestoneEditor

  /**
   * The line repeated by the generator, "The quick brown fox jumps over the lazy dog.
   * 0123456789" and a line feed; written in four pieces so that proofs about its
   * characters stay small.
   */
  const SampleLine: string := "The quick brow" + "n fox jumps ov" + "er the lazy do" + "g. 0123456789\n"

  predicate IsAscii(s: string)
  {
    forall i :: 0 <= i < |s| ==> s[i] as int < 0x80
  }

  /** The largest value of Swift's 64-bit `Int`. */
  const IntMax: int := 0x7FFF_FFFF_FFFF_FFFF

  /** The number of bytes of the UTF-8 encoding of `s` (`s.utf8.count`). */
  function Utf8Length(s: string): (n: nat)
    ensures |s| <= n <= 4 * |s|
    decreases |s|
  {
    if s == [] then 0
    else
      var c := s[0] as int;
      (if c < 0x80 then 1 else if c < 0x800 then 2 else if c < 0x1_0000 then 3 else 4)
      + Utf8Length(s[1..])
  }

  /** The decimal digits of `n`, as string interpolation writes them. */
  function Decimal(n: nat): (r: string)
    ensures |r| >= 1
    ensures forall i :: 0 <= i < |r| ==> '0' <= r[i] <= '9'
    decreases n
  {
    var d := ['0' + (n % 10) as char];
    if n < 10 then d else Decimal(n / 10) + d
  }

  /** The number a run of decimal digits denotes, read most significant digit first. */
  function DigitsValue(s: string): nat
    requires forall i :: 0 <= i < |s| ==> '0' <= s[i] <= '9'
    decreases |s|
  {
    if s == [] then 0 else DigitsValue(s[..|s| - 1]) * 10 + (s[|s| - 1] - '0') as nat
  }

  /** `Decimal(n)` denotes `n`, with no leading zero unless `n` is 0. */
  lemma {:induction false} DecimalValue(n: nat)
    ensures DigitsValue(Decimal(n)) == n
    ensures Decimal(n)[0] != '0' || n == 0
    decreases n
  {
    if n >= 10 {
      var r := Decimal(n);
      assert r[..|r| - 1] == Decimal(n / 10);
      DecimalValue(n / 10);
    }
  }

  /** Line `k` of the generated text. */
  function NumberedLine(k: nat): string
  {
    "Line " + Decimal(k) + ": " + SampleLine
  }

  /** The first `n` lines, numbered from 1. */
  function Lines(n: nat): (lines: seq<string>)
    ensures |lines| == n
  {
    seq(n, k requires 0 <= k < n => NumberedLine(k + 1))
  }

  /** `joined()`: the concatenation of `lines` with no separator. */
  function Joined(lines: seq<string>): string
    decreases |lines|
  {
    if lines == [] then "" else Joined(lines[..|lines| - 1]) + lines[|lines| - 1]
  }

  /** The text the generator produces for `n` lines. */
  function GeneratedText(n: nat): string
  {
    Joined(Lines(n))
  }

  /** The number of lines that fit the requested size at the sample line's byte length. */
  function LineCount(sizeKB: nat): (n: nat)
    ensures n == sizeKB * 1024 / 56
  {
    SampleLineBytes();
    sizeKB * 1024 / Utf8Length(SampleLine)
  }

  /** The number of occurrences of `c` in `s`. */
  function Occurrences(c: char, s: string): nat
    decreases |s|
  {
    if s == [] then 0 else (if s[0] == c then 1 else 0) + Occurrences(c, s[1..])
  }

  /** The test-data menu. */
  datatype MenuAction = Generate1MB | Generate5MB | Clear

  /** The size each generate item asks for, in KB. */
  function MenuSizeKB(action: MenuAction): nat
    requires action != Clear
  {
    if action == Generate1MB then 1024 else 5120
  }

  // ---------------------------------------------------------------------------
  // Facts about the generator
  // ---------------------------------------------------------------------------

  lemma {:induction false} AsciiUtf8Length(s: string)
    requires IsAscii(s)
    ensures Utf8Length(s) == |s|
    decreases |s|
  {
    if s != [] {
      assert IsAscii(s[1..]) by {
        forall i | 0 <= i < |s[1..]| ensures s[1..][i] as int < 0x80 { assert s[1..][i] == s[i + 1]; }
      }
      AsciiUtf8Length(s[1..]);
    }
  }

  lemma AsciiAppend(a: string, b: string)
    requires IsAscii(a) && IsAscii(b)
    ensures IsAscii(a + b)
  {
    forall i | 0 <= i < |a + b| ensures (a + b)[i] as int < 0x80 {
      if i >= |a| { assert (a + b)[i] == b[i - |a|]; }
    }
  }

  /** The sample line is ASCII, 56 characters long, and ends in its only line feed. */
  lemma SampleLineFacts()
    ensures IsAscii(SampleLine) && |SampleLine| == 56
    ensures SampleLine[55] == '\n' && '\n' !in SampleLine[..55]
  {
    var p1, p2, p3, p4 := "The quick brow", "n fox jumps ov", "er the lazy do", "g. 0123456789\n";
    assert IsAscii(p1) && IsAscii(p2) && IsAscii(p3) && IsAscii(p4);
    AsciiAppend(p1, p2);
    AsciiAppend(p1 + p2, p3);
    AsciiAppend(p1 + p2 + p3, p4);
    assert '\n' !in p1 && '\n' !in p2 && '\n' !in p3 && '\n' !in p4[..13];
    assert SampleLine[..55] == p1 + p2 + p3 + p4[..13];
  }

  /** The sample line is 56 bytes long, so a request of `sizeKB` yields `sizeKB * 1024 / 56` lines. */
  lemma SampleLineBytes()
    ensures Utf8Length(SampleLine) == 56
  {
    SampleLineFacts();
    AsciiUtf8Length(SampleLine);
  }

  /** The two menu sizes give 18724 and 93622 lines. */
  lemma MenuLineCounts()
    ensures LineCount(MenuSizeKB(Generate1MB)) == 18724
    ensures LineCount(MenuSizeKB(Generate5MB)) == 93622
  {
    SampleLineBytes();
  }

  /** One more line appends that line, numbered `n + 1`, at the end. */
  lemma GeneratedTextStep(n: nat)
    ensures GeneratedText(n + 1) == GeneratedText(n) + NumberedLine(n + 1)
  {
    assert Lines(n + 1)[..n] == Lines(n);
  }

  lemma {:induction false} OccurrencesAppend(c: char, a: string, b: string)
    ensures Occurrences(c, a + b) == Occurrences(c, a) + Occurrences(c, b)
    decreases |a|
  {
    if a == [] {
      assert a + b == b;
    } else {
      assert (a + b)[1..] == a[1..] + b;
      OccurrencesAppend(c, a[1..], b);
    }
  }

  lemma {:induction false} NoOccurrences(c: char, s: string)
    requires c !in s
    ensures Occurrences(c, s) == 0
    decreases |s|
  {
    if s != [] {
      NoOccurrences(c, s[1..]);
    }
  }

  /** Each numbered line holds exactly one line break, at its end. */
  lemma NumberedLineBreaks(k: nat)
    ensures Occurrences('\n', NumberedLine(k)) == 1
    ensures NumberedLine(k)[|NumberedLine(k)| - 1] == '\n'
  {
    SampleLineFacts();
    var body := SampleLine[..55];
    assert SampleLine == body + "\n";
    NoOccurrences('\n', body);
    NoOccurrences('\n', "Line ");
    NoOccurrences('\n', Decimal(k));
    NoOccurrences('\n', ": ");
    assert Occurrences('\n', "\n") == 1;
    OccurrencesAppend('\n', body, "\n");
    OccurrencesAppend('\n', "Line ", Decimal(k));
    OccurrencesAppend('\n', "Line " + Decimal(k), ": ");
    OccurrencesAppend('\n', "Line " + Decimal(k) + ": ", SampleLine);
  }

  /** The generated text holds exactly `n` lines: `n` line breaks, and is empty for 0. */
  lemma {:induction false} GeneratedLineBreaks(n: nat)
    ensures Occurrences('\n', GeneratedText(n)) == n
    ensures n == 0 <==> GeneratedText(n) == ""
  {
    if n > 0 {
      GeneratedLineBreaks(n - 1);
      GeneratedTextStep(n - 1);
      NumberedLineBreaks(n);
      OccurrencesAppend('\n', GeneratedText(n - 1), NumberedLine(n));
    }
  }

  /**
   * After a host mints a new token (as `ClearText` and `GenerateTestText` do), the next
   * pass with the request its body builds replaces the widget's text with the view's
   * text, once, and applies the new token.
   */
  lemma NewTokenRenderPushes(w: RunestoneEditor.EditorState, previous: RunestoneEditor.Token, v: SpikeView)
    requires w.lastLoadID == Some(previous)
    requires v.loadID == RunestoneEditor.Mint(previous)
    ensures RunestoneEditor.Reconciled(w, v.Body()).text == v.text
    ensures RunestoneEditor.Reconciled(w, v.Body()).pushCount == w.pushCount + 1
    ensures RunestoneEditor.Reconciled(w, v.Body()).lastLoadID == Some(v.loadID)
  {
  }

  // ---------------------------------------------------------------------------
  // The view
  // ---------------------------------------------------------------------------

  class SpikeView {
    var text: string
    var loadID: RunestoneEditor.Token
    var characterCount: int

    constructor (minted: RunestoneEditor.Token)
      ensures text == "" && loadID == minted && characterCount == 0
    {
      text := "";
      loadID := minted;
      characterCount := 0;
    }

    /** `body`: the editor request, built from the view's text and token. */
    function Body(): (e: RunestoneEditor.Editor)
      reads this
      ensures e.textToLoad == text && e.loadID == loadID
      ensures e.showLineNumbers && e.hasTextChangeHandler
    {
      RunestoneEditor.Editor(text, loadID, true, true)
    }

    /** `handleTextChange`: only the character count follows the widget. */
    method HandleTextChange(newText: string)
      modifies this
      ensures characterCount == |newText|
      ensures text == old(text) && loadID == old(loadID)
    {
      characterCount := |newText|;
    }

    /** `generateTestText(sizeKB:)`. */
    method GenerateTestText(sizeKB: int)
      requires 0 <= sizeKB && sizeKB * 1024 <= IntMax
      modifies this
      ensures text == GeneratedText(LineCount(sizeKB))
      ensures characterCount == |text|
      ensures loadID == RunestoneEditor.Mint(old(loadID)) && loadID != old(loadID)
    {
      var targetBytes := sizeKB * 1024;
      var lineBytes := Utf8Length(SampleLine);
      SampleLineBytes();
      var lineCount := targetBytes / lineBytes;
      var lines: seq<string> := [];
      for i := 0 to lineCount
        invariant lines == Lines(i)
      {
        lines := lines + [NumberedLine(i + 1)];
      }
      text := Joined(lines);
      characterCount := |text|;
      loadID := RunestoneEditor.Mint(loadID);
    }

    /** `clearText`. */
    method ClearText()
      modifies this
      ensures text == "" && characterCount == 0
      ensures loadID == RunestoneEditor.Mint(old(loadID)) && loadID != old(loadID)
    {
      text := "";
      characterCount := 0;
      loadID := RunestoneEditor.Mint(loadID);
    }

    /** A tap on one of the menu's three items. */
    method Choose(action: MenuAction)
      modifies this
      ensures action == Generate1MB ==> text == GeneratedText(LineCount(1024))
      ensures action == Generate5MB ==> text == GeneratedText(LineCount(5120))
      ensures action == Clear ==> text == ""
      ensures characterCount == |text|
      ensures loadID == RunestoneEditor.Mint(old(loadID))
    {
      match action
      case Generate1MB => GenerateTestText(1024);
      case Generate5MB => GenerateTestText(5120);
      case Clear => ClearText();
    }
  }
}

=== FILE: text_document.dfy ===
/**
 * The document model (CotEditorMobile/Sources/TextDocument.swift): one string, read
 * from a file by trying UTF-8 and then ASCII, written back as UTF-8.
 *
 * Foundation's decoders and encoder are not modelled; they are passed in as partial
 * functions (`None` meaning the conversion failed).
 */
module TextDocument {
  import opened Wrappers

  type byte = x: int | 0 <= x < 256
  type Data = seq<byte>

  /** The content types the document type declares it can read. */
  datatype ContentType = PlainText | Json | SwiftSource

  /** The errors `init(configuration:)` throws. */
  datatype CocoaError = FileReadCorruptFile | FileReadInapplicableStringEncoding

  /** The string conversions Foundation supplies. */
  datatype Codecs = Codecs(
    decodeUtf8: Data -> Option<string>,
    decodeAscii: Data -> Option<string>,
    encodeUtf8: string -> Option<Data>)

  /** What the read configuration offers: the regular file's contents, if any. */
  datatype ReadConfiguration = ReadConfiguration(regularFileContents: Option<Data>)

  datatype TextDocument = TextDocument(text: string)

  function ReadableContentTypes(): (types: seq<ContentType>)
    ensures |types| == 3 && types[0] == PlainText && types[1] == Json && types[2] == SwiftSource
  {
    [PlainText, Json, SwiftSource]
  }

  /** `init(text:)`: stores its argument, by default the empty string. */
  function New(text: string := ""): (doc: TextDocument)
    ensures doc.text == text
  {
    TextDocument(text)
  }

  /** The decode chain: UTF-8, else ASCII, else nothing. */
  function Decode(codecs: Codecs, data: Data): Option<string>
  {
    var utf8 := codecs.decodeUtf8(data);
    if utf8.Some? then utf8 else codecs.decodeAscii(data)
  }

  /** `init(configuration:)`. */
  function Read(codecs: Codecs, configuration: ReadConfiguration): Result<TextDocument, CocoaError>
  {
    match configuration.regularFileContents
    case None => Err(FileReadCorruptFile)
    case Some(data) =>
      match Decode(codecs, data)
      case None => Err(FileReadInapplicableStringEncoding)
      case Some(decoded) => Ok(TextDocument(decoded))
  }

  /** `fileWrapper(configuration:)`: the regular file's contents. */
  function Write(codecs: Codecs, doc: TextDocument): Data
  {
    var encoded := codecs.encodeUtf8(doc.text);
    if encoded.Some? then encoded.value else []
  }

  /** Every outcome of reading, case by case. */
  lemma ReadOutcomes(codecs: Codecs, configuration: ReadConfiguration)
    ensures configuration.regularFileContents.None? ==>
              Read(codecs, configuration) == Err(FileReadCorruptFile)
    ensures forall data :: configuration.regularFileContents == Some(data) ==>
              && (codecs.decodeUtf8(data).Some? ==>
                    Read(codecs, configuration) == Ok(TextDocument(codecs.decodeUtf8(data).value)))
              && (codecs.decodeUtf8(data).None? && codecs.decodeAscii(data).Some? ==>
                    Read(codecs, configuration) == Ok(TextDocument(codecs.decodeAscii(data).value)))
              && (codecs.decodeUtf8(data).None? && codecs.decodeAscii(data).None? ==>
                    Read(codecs, configuration) == Err(FileReadInapplicableStringEncoding))
  {
  }

  /** The ASCII decoder has no influence on reading when UTF-8 decoding succeeds. */
  lemma AsciiOnlyOnUtf8Failure(codecs: Codecs, decodeAscii: Data -> Option<string>, data: Data)
    requires codecs.decodeUtf8(data).Some?
    ensures Read(codecs.(decodeAscii := decodeAscii), ReadConfiguration(Some(data)))
         == Read(codecs, ReadConfiguration(Some(data)))
  {
  }

  /** A read produces a document exactly when the file has contents one decoder accepts. */
  lemma ReadSucceedsIff(codecs: Codecs, configuration: ReadConfiguration)
    ensures Read(codecs, configuration).Ok? <==>
      (configuration.regularFileContents.Some? &&
       (codecs.decodeUtf8(configuration.regularFileContents.value).Some? ||
        codecs.decodeAscii(configuration.regularFileContents.value).Some?))
  {
  }

  /** Writing is the UTF-8 encoding, or empty data when encoding fails. */
  lemma WriteOutcomes(codecs: Codecs, doc: TextDocument)
    ensures codecs.encodeUtf8(doc.text).Some? ==> Write(codecs, doc) == codecs.encodeUtf8(doc.text).value
    ensures codecs.encodeUtf8(doc.text).None? ==> Write(codecs, doc) == []
  {
  }

  /**
   * Saving and reopening gives the same document whenever the UTF-8 encoder and
   * decoder are inverse on the document's text.
   */
  lemma WriteThenRead(codecs: Codecs, doc: TextDocument)
    requires codecs.encodeUtf8(doc.text).Some?
    requires codecs.decodeUtf8(codecs.encodeUtf8(doc.text).value) == Some(doc.text)
    ensures Read(codecs, ReadConfiguration(Some(Write(codecs, doc)))) == Ok(doc)
  {
  }
}

=== FILE: wrappers.dfy ===
/** Optional values and results with an error, as the Swift code uses `T?` and `throws`. */
module Wrappers {

  datatype Option<+T> = None | Some(value: T)

  datatype Result<+R, +E> = Ok(value: R) | Err(error: E)
}
